=== FILE: README.md ===
# Gallery model of the Swati Shekhar portfolio page

The portfolio page's `script.js` builds a filterable gallery of artworks. It
shows one tab per category, a grid of cards and an "open in a lightbox"
preview. This project models the data-and-state logic of that gallery in
Dafny and proves its properties:

- the catalog of artwork records, and the category labels derived from it:
  `"All"` and then each `form` once, in first-seen order;
- the filter: `"All"` keeps everything; any other category keeps exactly its
  records, in catalog order;
- the renderer: each call replaces the grid with one card per record, in
  order, and shows an empty-state indicator when there is nothing to show.
  A card has a title, a meta line `form • medium • year` and an alt text
  `title — form`;
- the filter tab bar: every filter call deselects all tabs and then selects
  the clicked one, if there is one;
- the lightbox: a lazily created singleton overlay that is Open or Closed
  and holds the image `src` of the last artwork opened.

Everything is a pure function over immutable datatypes. A page element the
page may lack is an `Option`, and an operation that needs a missing element
leaves the page unchanged, as the source does (script.js:91, 103).

Modules, one per component:

- `Wrappers`: the `Option` datatype.
- `Catalog`: `Artwork`, the shipped seven records, `Dedupe` and
  `DeriveCategories`.
- `Filter`: `Select` and `FilterBy`, a reference definition by positions,
  and the partition of the catalog by category.
- `Text`: the decimal text of a year as a template literal shows it (for
  years below 10^21 in magnitude), reading it back, and cutting a line at a
  separator.
- `Render`: cards, meta line, alt text, and `BuildGallery` over the grid and
  the empty indicator.
- `Tabs`: building the tab bar and marking the selected tab.
- `Lightbox`: the overlay state machine, with a count of the overlay
  elements appended to the document.
- `Gallery`: the page as a whole. This covers `applyFilter`, a tab click,
  a card activation and the start-up sequence.

Three facts about the code:

- No "current filter" is stored. `applyFilter` changes only the tabs'
  `aria-selected` and the grid (script.js:138-143).
- After start-up no tab is selected. `buildFilters` selects the first tab
  (script.js:93), then `applyFilter('All')` runs with no button
  (script.js:218), which deselects every tab and selects none. Exactly one
  tab is selected only after a click (`Gallery.Start`,
  `Gallery.ClickSelectsOneTab`).
- The lightbox holds only the image `src` of the opened record
  (script.js:167). Closing it keeps that `src`.

## Model

| member | source | states |
|---|---|---|
| Catalog.Dedupe | script.js:28 | the `Set` of forms: no value twice, and exactly the values of the input |
| Catalog.DedupeFirstSeenOrder | script.js:28 | the deduplicated values are listed in the order of their first occurrence |
| Catalog.DedupeKeepsFirst | script.js:28 | the first form seen is the first deduplicated value |
| Catalog.DeriveCategories | script.js:28 | starts with "All"; the rest are pairwise distinct, include every record's form and contain nothing else; the whole list is duplicate-free when no record is labelled "All"; an empty catalog gives only "All" |
| Catalog.CategoriesFirstSeenOrder | script.js:28 | the categories after "All" appear in the order their form is first seen in the catalog |
| Catalog.FirstCategoryIsFirstForm | script.js:19-28 | the tab after "All" is the first record's form (Madhubani on the shipped data) |
| Catalog.DedupeOfDistinct | script.js:28 | a list of forms with no repeats keeps every form, in its order |
| Catalog.CategoriesOfSevenRecords | script.js:19-28 | a seven-record catalog whose forms run a, b, c, d, e, a, c gets exactly the tabs "All", a, b, c, d, e |
| Catalog.ShippedCategories | script.js:19-28 | the shipped catalog gets exactly the tabs All, Madhubani, Warli, Mandala, Zentangle, Calligraphy |
| Filter.Select | script.js:141 | every selected record is a catalog record of that form, and every such record is selected |
| Filter.FilterBy | script.js:141 | "All" yields the whole catalog; another category yields exactly the records of that form; a category no record carries yields nothing |
| Filter.MatchingPositions | script.js:141 | reference definition: the strictly increasing catalog positions whose record has the category, all of them |
| Filter.SelectCountsMatches | script.js:141 | the selection has one record per matching position |
| Filter.SelectAtMatchingPosition | script.js:141 | the k-th selected record is the record at the k-th matching position |
| Filter.FilterIsOrderedSubsequence | script.js:141 | the filter result is the order-preserving subsequence of the catalog at exactly the positions whose form matches |
| Filter.SelectionsPartition | script.js:141 | for distinct labels covering every form, the selections together hold as many records as the catalog |
| Filter.CategoriesPartitionCatalog | script.js:28 | the derived categories partition the catalog; with no record labelled "All" each record shows under exactly the tab of its own form |
| Filter.ShippedMadhubani | script.js:19-25 | on the shipped catalog, Madhubani yields "Peacock in Bloom" then "Floral Harmony" |
| Filter.ShippedNonexistent | script.js:141 | on the shipped catalog, a category no record carries yields nothing |
| Text.IntText | script.js:122 | the year's text is canonical decimal: it starts with a minus sign exactly when the year is negative, and the digits after it are non-empty with no leading zero |
| Text.IntTextRoundTrip | script.js:122 | reading back the year's text yields the year, negative years included |
| Text.Cut | script.js:122 | cutting at a separator gives the text before its first occurrence and the text after it, or nothing when it is absent |
| Render.MetaLine | script.js:122 | the meta line is the form, " • ", the medium, " • ", then the year's text, each piece at its place |
| Render.MetaLineRoundTrip | script.js:122 | the meta line `form • medium • year` can be read back into its three fields when form and medium hold no bullet |
| Render.AltText | script.js:115 | the alt text is the title, then " — ", then the form |
| Render.Cards | script.js:112-135 | one card per record, in order; each card shows its record's title, image, meta line and alt text, and opens that record |
| Render.CardsKeepRecords | script.js:112-135 | reading the records back off the cards gives the input: none lost, added or reordered |
| Render.BuildGallery | script.js:100-136 | with a mount point missing nothing changes; otherwise the grid holds exactly the cards of the input (each with its record's title, meta line, image and alt text, in order), and the empty indicator is hidden exactly when the input is non-empty |
| Render.RenderForgetsPrevious | script.js:104 | no card of an earlier render survives: the result does not depend on what was shown before |
| Render.RenderEmpty | script.js:104-109 | rendering nothing clears the grid and shows the empty indicator |
| Render.RenderIdempotent | script.js:104-135 | rendering the same records twice equals rendering them once |
| Tabs.BuildFilters | script.js:89-98 | with no bar nothing is built; otherwise one tab per category is appended, in order, only the first selected |
| Tabs.MarkSelected | script.js:139-140 | every tab keeps its category and is selected exactly when it is the clicked one |
| Tabs.ClickSelectsExactlyOne | script.js:139-140 | after a click on a tab exactly one tab, the clicked one, is selected |
| Tabs.NoButtonSelectsNone | script.js:139-140 | a filter call with no button leaves no tab selected |
| Tabs.BuildSelectsFirst | script.js:92-93 | building the tabs selects exactly the first |
| Lightbox.Ensure | script.js:149-163 | an existing overlay is returned unchanged; otherwise one new overlay is appended, hidden and without image |
| Lightbox.Show | script.js:165-169 | opening leaves the lightbox Open on the record's `src`, and appends an overlay only if none existed |
| Lightbox.Click | script.js:156-157 | the close button and the backdrop close the lightbox; the content area and the image change nothing; the image is kept |
| Lightbox.Activate | script.js:126-133 | the View button and the Enter key both open the card's record; any other key does nothing |
| Lightbox.StepKeepsSingleOverlay | script.js:150 | each event keeps exactly one overlay element in the document once it exists, none before |
| Lightbox.RunKeepsOverlay | script.js:150 | once created, the overlay is never removed or recreated |
| Lightbox.RunKeepsSingleOverlay | script.js:148-161 | any run of events keeps the overlay a singleton |
| Lightbox.RunCreatesOverlayOnOpen | script.js:148-166 | the overlay exists after a run exactly when it existed before or the run opened something |
| Lightbox.OverlayCreatedAtMostOnce | script.js:148-166 | from page load, at most one overlay element is ever created, and one exists exactly when something was opened |
| Lightbox.ShowReplaces | script.js:165-169 | opening A then B equals opening B: Open on B's `src`, no stacking |
| Lightbox.ReopenReusesOverlay | script.js:150-168 | open, close on the backdrop, open again reuses the single overlay and shows the record again |
| Lightbox.ClosesOnlyOnBackdropOrButton | script.js:156-157 | an open lightbox closes exactly on the backdrop or the close button; other clicks change nothing |
| Gallery.ApplyFilter | script.js:138-143 | the tabs are reset to the clicked one, the grid is rebuilt from the category's records, and the lightbox is untouched |
| Gallery.ClickTab | script.js:95 | a tab click selects that tab alone, keeps every tab's category, renders that tab's category and leaves the lightbox untouched |
| Gallery.ActivateCard | script.js:126-133 | activating a card by its View button or the Enter key is exactly `Show` on that card's record (open on its `src`, one overlay element); tabs and grid are untouched; other keys change nothing |
| Gallery.Start | script.js:216-218 | start-up appends one tab per derived category, leaves no tab selected in any mounted bar, shows the whole catalog as one render would, and does not touch the lightbox |
| Gallery.StartLeavesNoTabSelected | script.js:216-218 | building the tabs into an empty bar selects "All", but after start-up no tab of any mounted bar is selected |
| Gallery.StartShowsWholeCatalog | script.js:216-218 | after start-up a mounted grid shows the whole catalog in order, the empty indicator hidden when it is non-empty |
| Gallery.StartBuildsCategoryTabs | script.js:92-96 | after start-up an initially empty bar holds one tab per derived category, in order |
| Gallery.ClickSelectsOneTab | script.js:138-142 | after a tab click exactly that tab is selected and the grid shows exactly that category's records |
| Gallery.ClickShowsRecords | script.js:138-142 | after a tab click the grid holds one card per filtered record, with its title, and the empty indicator reflects emptiness |
| Gallery.ClickTabIdempotent | script.js:138-143 | clicking the same tab twice equals clicking it once |
| Gallery.StartThenClickMadhubani | script.js:216-218 | on the shipped page, start-up builds exactly the six tabs All, Madhubani, Warli, Mandala, Zentangle, Calligraphy, and clicking Madhubani shows "Peacock in Bloom" then "Floral Harmony" and hides the empty indicator |
| Gallery.FilterNothingShowsEmpty | script.js:104-109 | filtering by a category no record carries clears the grid and shows the empty indicator |

## Left out

- Navigation toggle, smooth scrolling and `history.replaceState` (script.js:55-84): DOM and history plumbing with no state of the gallery.
- Contact hydration, the contact form and `mailtoUrl` (script.js:47-50, 174-200): the encoding is delegated to `URLSearchParams`, which is not part of this model.
- `setYear` (script.js:205-208): reads the wall clock.
- `$`, `$all` and `createEl` (script.js:33-45): thin wrappers over the DOM API. Elements are values here.
- The image `error` fallback (script.js:116): an asynchronous browser event. It would substitute the placeholder `src` of one card's image once, and a card's `imageSrc` here is the value before any such substitution.
- The other attributes (`role`, `tabindex`, `data-filter`, `loading`, the ARIA labels) are not modelled. The model assumes every element of the bar is a `role="tab"` button, so the selector of script.js:139 finds all of them. It also assumes every card can take focus, which `tabindex: '0'` gives it (script.js:113) and which the Enter key needs (script.js:133). `loading`, the ARIA labels and the "View" and "✕" button texts have no behaviour here.
- The event objects: a click on a tab or a View button is a call with that tab or card. A key press is its key string only.
- The record fields `id` and `size`: carried but never read by the gallery.
- Text.IntText: `year` is a JavaScript number, and a template literal prints it in plain decimal only for magnitudes below 10^21; above that it uses exponent form (`1e+21`), which the model does not produce.
- Render.MetaLineRoundTrip: requires form and medium to hold no bullet character. The meta line cannot be read back otherwise, and the shipped data holds none.

=== FILE: catalog.dfy ===
/**
 The static artwork catalog of the portfolio page and the category labels
 derived from it: `"All"` followed by the distinct `form` values in the order
 each is first seen (script.js:18-28).
 */
module Catalog {

  /** One artwork record; every field is fixed when the page loads. */
  datatype Artwork = Artwork(
    id: string,
    title: string,
    form: string,
    src: string,
    year: int,
    medium: string,
    size: string)

  /** The sentinel category meaning "no filter applied". */
  const AllLabel: string := "All"

  const Placeholder: string := "assets/images/placeholder.svg"

  /** The seven records the page ships with. */
  const Artworks: seq<Artwork> := [
    Artwork("madhubani-1", "Peacock in Bloom", "Madhubani", Placeholder, 2023, "Acrylic on Canvas", "12\U{00D7}16 in"),
    Artwork("warli-1", "Village Dance", "Warli", Placeholder, 2022, "Ink on Paper", "A3"),
    Artwork("mandala-1", "Symmetry Calm", "Mandala", Placeholder, 2024, "Fineliner on Paper", "A4"),
    Artwork("zentangle-1", "Flow State", "Zentangle", Placeholder, 2021, "Ink on Paper", "A4"),
    Artwork("calligraphy-1", "Devanagari Grace", "Calligraphy", Placeholder, 2023, "Ink & Brush Pen", "A3"),
    Artwork("madhubani-2", "Floral Harmony", "Madhubani", Placeholder, 2022, "Watercolor on Paper", "12\U{00D7}12 in"),
    Artwork("mandala-2", "Golden Ratio", "Mandala", Placeholder, 2023, "Ink on Paper", "A4")
  ]

  /** No two positions of `s` hold the same value. */
  predicate Distinct<T(==)>(s: seq<T>) {
    forall i, j :: 0 <= i < j < |s| ==> s[i] != s[j]
  }

  /** The `form` of every record, position by position. */
  function Forms(catalog: seq<Artwork>): (r: seq<string>)
    ensures |r| == |catalog|
    ensures forall i :: 0 <= i < |catalog| ==> r[i] == catalog[i].form
  {
    seq(|catalog|, i requires 0 <= i < |catalog| => catalog[i].form)
  }

  /** The position of the first occurrence of `x` in `xs`. */
  function FirstIndex<T(==)>(xs: seq<T>, x: T): (k: nat)
    requires x in xs
    ensures k < |xs| && xs[k] == x
    ensures forall i :: 0 <= i < k ==> xs[i] != x
  {
    if xs[0] == x then 0 else 1 + FirstIndex(xs[1..], x)
  }

  /**
   The values of `xs` without repetitions, kept where each first occurs:
   what iterating a JavaScript `Set` built from `xs` yields.
   */
  function Dedupe(xs: seq<string>): (r: seq<string>)
    ensures Distinct(r)
    ensures forall x :: x in r <==> x in xs
    ensures |r| <= |xs|
  {
    if |xs| == 0 then []
    else
      var seen := Dedupe(xs[..|xs| - 1]);
      var last := xs[|xs| - 1];
      assert xs == xs[..|xs| - 1] + [last];
      if last in seen then seen else seen + [last]
  }

  /** An element already present in `a` is first seen at the same place in `a + b`. */
  lemma FirstIndexOfPrefix<T>(a: seq<T>, b: seq<T>, x: T)
    requires x in a
    ensures FirstIndex(a + b, x) == FirstIndex(a, x)
  {
    var k := FirstIndex(a, x);
    assert (a + b)[k] == x;
  }

  /** Dedupe lists its values in the order of their first occurrence in `xs`. */
  lemma {:induction false} DedupeFirstSeenOrder(xs: seq<string>)
    ensures forall i, j :: 0 <= i < j < |Dedupe(xs)| ==>
      FirstIndex(xs, Dedupe(xs)[i]) < FirstIndex(xs, Dedupe(xs)[j])
  {
    if |xs| > 0 {
      var p := xs[..|xs| - 1];
      var last := xs[|xs| - 1];
      assert xs == p + [last];
      DedupeFirstSeenOrder(p);
      var seen := Dedupe(p);
      forall y | y in p
        ensures FirstIndex(xs, y) == FirstIndex(p, y) && FirstIndex(p, y) < |xs| - 1
      {
        FirstIndexOfPrefix(p, [last], y);
      }
      if last !in seen {
        assert FirstIndex(xs, last) == |xs| - 1;
      }
    }
  }

  /** Putting a value not yet present in front of distinct values keeps them distinct. */
  lemma DistinctAfterFresh<T>(x: T, s: seq<T>)
    requires x !in s && Distinct(s)
    ensures Distinct([x] + s)
  {
    var r := [x] + s;
    forall i, j | 0 <= i < j < |r| ensures r[i] != r[j] {
      assert r[j] == s[j - 1];
      if i > 0 {
        assert r[i] == s[i - 1];
      }
    }
  }

  /** The forms list holds exactly the forms of the records. */
  lemma FormsCoverCatalog(catalog: seq<Artwork>)
    ensures forall a :: a in catalog ==> a.form in Forms(catalog)
    ensures forall c :: c in Forms(catalog) ==> exists a :: a in catalog && a.form == c
  {
    var forms := Forms(catalog);
    forall a | a in catalog ensures a.form in forms {
      var i :| 0 <= i < |catalog| && catalog[i] == a;
      assert forms[i] == a.form;
    }
    forall c | c in forms ensures exists a :: a in catalog && a.form == c {
      var i :| 0 <= i < |forms| && forms[i] == c;
      assert catalog[i] in catalog;
    }
  }

  /**
   The category labels shown as filter tabs: `"All"` and then each `form`
   once, in first-seen order (script.js:28).
   */
  function DeriveCategories(catalog: seq<Artwork>): (r: seq<string>)
    ensures |r| >= 1 && r[0] == AllLabel
    ensures Distinct(r[1..])
    ensures forall a :: a in catalog ==> a.form in r[1..]
    ensures forall c :: c in r[1..] ==> exists a :: a in catalog && a.form == c
    ensures (forall a :: a in catalog ==> a.form != AllLabel) ==> Distinct(r)
    ensures |catalog| == 0 ==> r == [AllLabel]
  {
    var forms := Forms(catalog);
    FormsCoverCatalog(catalog);
    var r := [AllLabel] + Dedupe(forms);
    assert r[1..] == Dedupe(forms);
    assert (forall a :: a in catalog ==> a.form != AllLabel) ==> Distinct(r) by {
      if (forall a :: a in catalog ==> a.form != AllLabel) {
        DistinctAfterFresh(AllLabel, Dedupe(forms));
      }
    }
    r
  }

  /** The derived labels after `"All"` appear in the order their form is first seen. */
  lemma CategoriesFirstSeenOrder(catalog: seq<Artwork>)
    ensures forall i, j :: 1 <= i < j < |DeriveCategories(catalog)| ==>
      var cats := DeriveCategories(catalog);
      FirstIndex(Forms(catalog), cats[i]) < FirstIndex(Forms(catalog), cats[j])
  {
    var forms := Forms(catalog);
    var cats := DeriveCategories(catalog);
    assert cats[1..] == Dedupe(forms);
    DedupeFirstSeenOrder(forms);
    forall i, j | 1 <= i < j < |cats|
      ensures FirstIndex(forms, cats[i]) < FirstIndex(forms, cats[j])
    {
      assert cats[i] == Dedupe(forms)[i - 1] && cats[j] == Dedupe(forms)[j - 1];
    }
  }

  /** The first value of `xs` is the first value of its deduplication. */
  lemma {:induction false} DedupeKeepsFirst(xs: seq<string>)
    requires |xs| > 0
    ensures |Dedupe(xs)| > 0 && Dedupe(xs)[0] == xs[0]
  {
    if |xs| > 1 {
      var p := xs[..|xs| - 1];
      DedupeKeepsFirst(p);
      assert p[0] == xs[0];
    }
  }

  /** The tab after "All" is the form of the first record. */
  lemma FirstCategoryIsFirstForm(catalog: seq<Artwork>)
    requires |catalog| > 0
    ensures |DeriveCategories(catalog)| >= 2
    ensures DeriveCategories(catalog)[1] == catalog[0].form
  {
    DedupeKeepsFirst(Forms(catalog));
  }

  /** Appending a value not yet seen extends the deduplicated list by it. */
  lemma DedupeStepNew(xs: seq<string>, d: seq<string>, x: string)
    requires Dedupe(xs) == d && x !in d
    ensures Dedupe(xs + [x]) == d + [x]
  {
    assert (xs + [x])[..|xs + [x]| - 1] == xs;
  }

  /** Appending a value already seen leaves the deduplicated list alone. */
  lemma DedupeStepSeen(xs: seq<string>, d: seq<string>, x: string)
    requires Dedupe(xs) == d && x in d
    ensures Dedupe(xs + [x]) == d
  {
    assert (xs + [x])[..|xs + [x]| - 1] == xs;
  }

  /** A list without repeats is its own deduplication. */
  lemma {:induction false} DedupeOfDistinct(xs: seq<string>)
    requires Distinct(xs)
    ensures Dedupe(xs) == xs
  {
    if |xs| > 0 {
      var init := xs[..|xs| - 1];
      var last := xs[|xs| - 1];
      assert Distinct(init);
      DedupeOfDistinct(init);
      assert last !in init by {
        forall i | 0 <= i < |init| ensures init[i] != last {
          assert xs[i] == init[i];
        }
      }
      DedupeStepNew(init, init, last);
      assert init + [last] == xs;
    }
  }

  /** Five distinct values deduplicate to themselves. */
  lemma DedupeFiveDistinct(a: string, b: string, c: string, d: string, e: string)
    requires a != b && a != c && a != d && a != e
    requires b != c && b != d && b != e
    requires c != d && c != e && d != e
    ensures Dedupe([a, b, c, d, e]) == [a, b, c, d, e]
  {
    DedupeOfDistinct([a, b, c, d, e]);
  }

  /** Repeating the first and third of five distinct values adds nothing. */
  lemma DedupeFiveThenRepeats(a: string, b: string, c: string, d: string, e: string)
    requires a != b && a != c && a != d && a != e
    requires b != c && b != d && b != e
    requires c != d && c != e && d != e
    ensures Dedupe([a, b, c, d, e, a, c]) == [a, b, c, d, e]
  {
    var five := [a, b, c, d, e];
    assert Dedupe(five) == five by {
      DedupeFiveDistinct(a, b, c, d, e);
    }
    assert Dedupe(five + [a]) == five by {
      DedupeStepSeen(five, five, a);
    }
    assert five + [a] + [c] == [a, b, c, d, e, a, c];
    DedupeStepSeen(five + [a], five, c);
  }

  /** The forms of a seven-record catalog, listed record by record. */
  lemma FormsOfSevenRecords(cat: seq<Artwork>)
    requires |cat| == 7
    ensures Forms(cat) == [cat[0].form, cat[1].form, cat[2].form, cat[3].form,
                           cat[4].form, cat[5].form, cat[6].form]
  {
  }

  /**
   A seven-record catalog whose forms run a, b, c, d, e, a, c, as the
   shipped one does, gets the tabs "All", a, b, c, d, e.
   */
  lemma CategoriesOfSevenRecords(cat: seq<Artwork>, a: string, b: string, c: string, d: string, e: string)
    requires |cat| == 7
    requires cat[0].form == a && cat[1].form == b && cat[2].form == c && cat[3].form == d
    requires cat[4].form == e && cat[5].form == a && cat[6].form == c
    requires a != b && a != c && a != d && a != e
    requires b != c && b != d && b != e
    requires c != d && c != e && d != e
    ensures DeriveCategories(cat) == [AllLabel, a, b, c, d, e]
  {
    FormsOfSevenRecords(cat);
    DedupeFiveThenRepeats(a, b, c, d, e);
    assert [AllLabel] + [a, b, c, d, e] == [AllLabel, a, b, c, d, e];
  }

  /** On the shipped catalog the tabs read All, Madhubani, Warli, Mandala, Zentangle, Calligraphy. */
  lemma ShippedCategories()
    ensures DeriveCategories(Artworks) ==
      [AllLabel, "Madhubani", "Warli", "Mandala", "Zentangle", "Calligraphy"]
  {
    CategoriesOfSevenRecords(Artworks, "Madhubani", "Warli", "Mandala", "Zentangle", "Calligraphy");
  }
}

=== FILE: filter.dfy ===
/**
 The gallery filter of script.js:141: `"All"` keeps the whole catalog, any
 other category keeps exactly the records of that form, in catalog order.
 */
module Filter {
  import opened Catalog

  /** The records whose form is `category`, in catalog order (`Array.prototype.filter`). */
  function Select(catalog: seq<Artwork>, category: string): (r: seq<Artwork>)
    ensures |r| <= |catalog|
    ensures forall a {:trigger a in r} :: a in r ==> a in catalog && a.form == category
    ensures forall a {:trigger a in catalog} :: a in catalog && a.form == category ==> a in r
  {
    if |catalog| == 0 then []
    else
      assert catalog == [catalog[0]] + catalog[1..];
      (if catalog[0].form == category then [catalog[0]] else []) + Select(catalog[1..], category)
  }

  /** The records shown for a category (script.js:141). */
  function FilterBy(catalog: seq<Artwork>, category: string): (r: seq<Artwork>)
    ensures category == AllLabel ==> r == catalog
    ensures category != AllLabel ==>
      forall a :: a in r <==> a in catalog && a.form == category
    ensures (category != AllLabel && forall a :: a in catalog ==> a.form != category) ==> r == []
  {
    if category == AllLabel then catalog
    else
      var r := Select(catalog, category);
      assert |r| > 0 ==> r[0] in r;
      r
  }

  /** Select on a suffix of the catalog, one record at a time. */
  lemma SelectSuffix(catalog: seq<Artwork>, category: string, k: nat)
    requires k < |catalog|
    ensures Select(catalog[k..], category) ==
      (if catalog[k].form == category then [catalog[k]] else []) + Select(catalog[k + 1..], category)
  {
    assert catalog[k..][1..] == catalog[k + 1..];
  }

  /**
   An independent reference for Select: the positions from `from` on whose
   record has form `category`, in increasing order.
   */
  function MatchingPositions(catalog: seq<Artwork>, category: string, from: nat): (idx: seq<nat>)
    requires from <= |catalog|
    ensures forall k :: 0 <= k < |idx| ==> from <= idx[k] < |catalog| && catalog[idx[k]].form == category
    ensures forall k, l :: 0 <= k < l < |idx| ==> idx[k] < idx[l]
    ensures forall i :: from <= i < |catalog| && catalog[i].form == category ==> i in idx
    decreases |catalog| - from
  {
    if from == |catalog| then []
    else
      (if catalog[from].form == category then [from] else []) + MatchingPositions(catalog, category, from + 1)
  }

  /** Select keeps one record per matching position. */
  lemma {:induction false} SelectCountsMatches(catalog: seq<Artwork>, category: string, from: nat)
    requires from <= |catalog|
    ensures |Select(catalog[from..], category)| == |MatchingPositions(catalog, category, from)|
    decreases |catalog| - from
  {
    if from < |catalog| {
      SelectCountsMatches(catalog, category, from + 1);
      SelectSuffix(catalog, category, from);
    }
  }

  /**
   Select is the order-preserving subsequence of the catalog at exactly the
   matching positions: its k-th record sits at the k-th matching position.
   */
  lemma {:induction false} SelectAtMatchingPosition(catalog: seq<Artwork>, category: string, from: nat, k: nat)
    requires from <= |catalog|
    requires k < |MatchingPositions(catalog, category, from)|
    ensures k < |Select(catalog[from..], category)|
    ensures Select(catalog[from..], category)[k] == catalog[MatchingPositions(catalog, category, from)[k]]
    decreases |catalog| - from
  {
    SelectCountsMatches(catalog, category, from);
    SelectSuffix(catalog, category, from);
    if catalog[from].form == category {
      if k > 0 {
        SelectAtMatchingPosition(catalog, category, from + 1, k - 1);
      }
    } else {
      SelectAtMatchingPosition(catalog, category, from + 1, k);
    }
  }

  /** For a real category, FilterBy picks exactly the matching positions, in order. */
  lemma FilterIsOrderedSubsequence(catalog: seq<Artwork>, category: string)
    requires category != AllLabel
    ensures var r := FilterBy(catalog, category);
      var idx := MatchingPositions(catalog, category, 0);
      && |r| == |idx|
      && (forall k :: 0 <= k < |r| ==> r[k] == catalog[idx[k]])
      && (forall k, l :: 0 <= k < l < |idx| ==> idx[k] < idx[l])
      && (forall i :: 0 <= i < |catalog| ==> (catalog[i].form == category <==> i in idx))
  {
    assert catalog[0..] == catalog;
    SelectCountsMatches(catalog, category, 0);
    forall k | 0 <= k < |MatchingPositions(catalog, category, 0)| {
      SelectAtMatchingPosition(catalog, category, 0, k);
    }
  }

  /** Sum of the sizes of the selections for each category in `labels`. */
  function SelectedTotal(catalog: seq<Artwork>, labels: seq<string>): nat {
    if |labels| == 0 then 0 else |Select(catalog, labels[0])| + SelectedTotal(catalog, labels[1..])
  }

  /** How many entries of `labels` equal `x`. */
  function Occurrences(labels: seq<string>, x: string): nat {
    if |labels| == 0 then 0 else (if labels[0] == x then 1 else 0) + Occurrences(labels[1..], x)
  }

  /** A value of a duplicate-free list occurs in it exactly once. */
  lemma {:induction false} OccursOnce(labels: seq<string>, x: string)
    requires Distinct(labels) && x in labels
    ensures Occurrences(labels, x) == 1
  {
    if labels[0] == x {
      OccursNever(labels[1..], x);
    } else {
      OccursOnce(labels[1..], x);
    }
  }

  /** A value absent from a list occurs in it zero times. */
  lemma {:induction false} OccursNever(labels: seq<string>, x: string)
    requires x !in labels
    ensures Occurrences(labels, x) == 0
  {
    if |labels| > 0 {
      OccursNever(labels[1..], x);
    }
  }

  /** Peeling the first record off the catalog splits the total per category. */
  lemma {:induction false} SelectedTotalStep(catalog: seq<Artwork>, labels: seq<string>)
    requires |catalog| > 0
    ensures SelectedTotal(catalog, labels)
      == Occurrences(labels, catalog[0].form) + SelectedTotal(catalog[1..], labels)
  {
    if |labels| > 0 {
      SelectedTotalStep(catalog, labels[1..]);
    }
  }

  /**
   Distinct labels that cover every form partition the catalog: the
   selections for the labels together have as many records as the catalog.
   */
  lemma {:induction false} SelectionsPartition(catalog: seq<Artwork>, labels: seq<string>)
    requires Distinct(labels)
    requires forall a :: a in catalog ==> a.form in labels
    ensures SelectedTotal(catalog, labels) == |catalog|
  {
    if |catalog| == 0 {
      SelectedTotalEmpty(catalog, labels);
    } else {
      SelectedTotalStep(catalog, labels);
      OccursOnce(labels, catalog[0].form);
      SelectionsPartition(catalog[1..], labels);
    }
  }

  /** An empty catalog selects nothing under any category. */
  lemma {:induction false} SelectedTotalEmpty(catalog: seq<Artwork>, labels: seq<string>)
    requires |catalog| == 0
    ensures SelectedTotal(catalog, labels) == 0
  {
    if |labels| > 0 {
      SelectedTotalEmpty(catalog, labels[1..]);
    }
  }

  /**
   The derived categories after `"All"` partition the catalog, and when no
   record is itself labelled `"All"` every record is shown under exactly one
   of those tabs.
   */
  lemma CategoriesPartitionCatalog(catalog: seq<Artwork>)
    ensures SelectedTotal(catalog, DeriveCategories(catalog)[1..]) == |catalog|
    ensures (forall a :: a in catalog ==> a.form != AllLabel) ==>
      forall a, c :: a in catalog && c in DeriveCategories(catalog)[1..] ==>
        (a in FilterBy(catalog, c) <==> c == a.form)
  {
    SelectionsPartition(catalog, DeriveCategories(catalog)[1..]);
  }

  /**
   Any seven-record catalog whose Madhubani records sit at positions 0 and 5,
   as the shipped one does, selects exactly those two, in that order.
   */
  lemma SelectMadhubaniPositions(c: seq<Artwork>)
    requires |c| == 7
    requires c[0].form == "Madhubani" && c[5].form == "Madhubani"
    requires c[1].form != "Madhubani" && c[2].form != "Madhubani" && c[3].form != "Madhubani"
    requires c[4].form != "Madhubani" && c[6].form != "Madhubani"
    ensures Select(c, "Madhubani") == [c[0], c[5]]
  {
    var m := "Madhubani";
    assert Select(c[7..], m) == [] by { assert c[7..] == []; }
    assert Select(c[6..], m) == [] by { SelectSuffix(c, m, 6); }
    assert Select(c[5..], m) == [c[5]] by { SelectSuffix(c, m, 5); }
    assert Select(c[4..], m) == [c[5]] by { SelectSuffix(c, m, 4); }
    assert Select(c[3..], m) == [c[5]] by { SelectSuffix(c, m, 3); }
    assert Select(c[2..], m) == [c[5]] by { SelectSuffix(c, m, 2); }
    assert Select(c[1..], m) == [c[5]] by { SelectSuffix(c, m, 1); }
    assert Select(c[0..], m) == [c[0], c[5]] by { SelectSuffix(c, m, 0); }
    assert c[0..] == c;
  }

  /** On the shipped catalog, Madhubani shows "Peacock in Bloom" then "Floral Harmony". */
  lemma ShippedMadhubani()
    ensures |FilterBy(Artworks, "Madhubani")| == 2
    ensures FilterBy(Artworks, "Madhubani")[0].title == "Peacock in Bloom"
    ensures FilterBy(Artworks, "Madhubani")[1].title == "Floral Harmony"
  {
    SelectMadhubaniPositions(Artworks);
  }

  /** A category no record carries shows nothing. */
  lemma ShippedNonexistent()
    ensures FilterBy(Artworks, "NonexistentForm") == []
  {
  }
}

=== FILE: gallery.dfy ===
/**
 The gallery section of the page as a whole: the filter call that resets
 the tabs and re-renders the grid (script.js:138-143), a click on a tab
 (script.js:95), a card opening the lightbox (script.js:126, 133), and the
 start-up sequence (script.js:216-218).
 */
module Gallery {
  import opened Wrappers
  import opened Catalog
  import opened Filter
  import opened Render
  import opened Tabs
  import opened Lightbox

  /** The gallery's part of the page: the tab bar, the grid with its empty indicator, the lightbox. */
  datatype Page = Page(bar: Option<seq<Tab>>, view: GalleryView, lightbox: LightboxState)

  /**
   `applyFilter(category, clickedBtn)`: every tab is deselected and only the
   clicked one selected, then the grid is rebuilt from the records the
   category admits. Nothing else on the page changes.
   */
  function ApplyFilter(catalog: seq<Artwork>, p: Page, category: string, clicked: Option<nat>): (r: Page)
    ensures r.lightbox == p.lightbox
    ensures r.bar.Some? <==> p.bar.Some?
    ensures p.bar.Some? ==> r.bar.value == MarkSelected(p.bar.value, clicked)
    ensures r.view == BuildGallery(p.view, FilterBy(catalog, category))
  {
    var bar := match p.bar
      case None => None
      case Some(tabs) => Some(MarkSelected(tabs, clicked));
    Page(bar, BuildGallery(p.view, FilterBy(catalog, category)), p.lightbox)
  }

  /** A click on tab `k` filters by that tab's category and names the tab as clicked (script.js:95). */
  function ClickTab(catalog: seq<Artwork>, p: Page, k: nat): (r: Page)
    requires p.bar.Some? && k < |p.bar.value|
    ensures r.bar.Some? && |r.bar.value| == |p.bar.value|
    ensures forall i :: 0 <= i < |p.bar.value| ==> (r.bar.value[i].selected <==> i == k)
    ensures forall i :: 0 <= i < |p.bar.value| ==> r.bar.value[i].category == p.bar.value[i].category
    ensures r.view == BuildGallery(p.view, FilterBy(catalog, p.bar.value[k].category))
    ensures r.lightbox == p.lightbox
  {
    ApplyFilter(catalog, p, p.bar.value[k].category, Some(k))
  }

  /** Activating card `k` of the grid opens that card's record in the lightbox. */
  function ActivateCard(p: Page, k: nat, how: Activation): (r: Page)
    requires p.view.grid.Some? && k < |p.view.grid.value|
    ensures r.bar == p.bar && r.view == p.view
    ensures how == ViewClick || how == KeyPress("Enter") ==>
      IsOpen(r.lightbox) && r.lightbox.overlay.value.src == Some(p.view.grid.value[k].item.src)
    ensures how == ViewClick || how == KeyPress("Enter") ==>
      r.lightbox == Show(p.lightbox, p.view.grid.value[k].item)
    ensures how.KeyPress? && how.key != "Enter" ==> r == p
  {
    p.(lightbox := Activate(p.lightbox, p.view.grid.value[k].item, how))
  }

  /**
   Page start-up: the tabs are built from the derived categories, the whole
   catalog is rendered, then `applyFilter('All')` runs with no button
   (script.js:216-218). The page passes its shipped catalog, `Artworks`.
   */
  function Start(catalog: seq<Artwork>, p: Page): (r: Page)
    ensures r.lightbox == p.lightbox
    ensures r.bar.Some? <==> p.bar.Some?
    ensures p.bar.Some? ==> SelectedCount(r.bar.value) == 0
    ensures p.bar.Some? ==>
      |r.bar.value| == |p.bar.value| + |DeriveCategories(catalog)|
      && forall i :: 0 <= i < |DeriveCategories(catalog)| ==>
           r.bar.value[|p.bar.value| + i].category == DeriveCategories(catalog)[i]
    ensures r.view == BuildGallery(p.view, catalog)
  {
    var built := p.(bar := BuildFilters(p.bar, DeriveCategories(catalog)));
    var shown := built.(view := BuildGallery(built.view, catalog));
    var r := ApplyFilter(catalog, shown, AllLabel, None);
    assert p.bar.Some? ==> SelectedCount(r.bar.value) == 0 by {
      if p.bar.Some? {
        NoButtonSelectsNone(built.bar.value);
      }
    }
    RenderIdempotent(built.view, catalog);
    r
  }

  /**
   After start-up no tab is selected: the selection that building the tabs
   gave to "All" is cleared by the button-less filter call. Building into an
   empty bar selects "All" first; the clearing holds for any bar.
   */
  lemma StartLeavesNoTabSelected(catalog: seq<Artwork>, p: Page)
    requires p.bar.Some?
    ensures p.bar == Some([]) ==>
      BuildFilters(p.bar, DeriveCategories(catalog)).value[0] == Tab(AllLabel, true)
      && SelectedCount(BuildFilters(p.bar, DeriveCategories(catalog)).value) == 1
    ensures Start(catalog, p).bar.Some?
    ensures SelectedCount(Start(catalog, p).bar.value) == 0
  {
    if p.bar == Some([]) {
      BuildSelectsFirst(DeriveCategories(catalog));
    }
  }

  /** After start-up a fully mounted page shows every record, in catalog order, and hides the empty indicator. */
  lemma StartShowsWholeCatalog(catalog: seq<Artwork>, p: Page)
    requires p.view.grid.Some? && p.view.emptyHidden.Some?
    ensures Start(catalog, p).view.grid.Some? && Opened(Start(catalog, p).view.grid.value) == catalog
    ensures Start(catalog, p).view.emptyHidden == Some(|catalog| > 0)
    ensures Start(catalog, p).lightbox == p.lightbox
  {
  }

  /** After a click on a tab exactly that tab is selected, and the grid holds the tab's records. */
  lemma ClickSelectsOneTab(catalog: seq<Artwork>, p: Page, k: nat)
    requires p.bar.Some? && k < |p.bar.value|
    requires p.view.grid.Some? && p.view.emptyHidden.Some?
    ensures ClickTab(catalog, p, k).bar.value[k].selected
    ensures SelectedCount(ClickTab(catalog, p, k).bar.value) == 1
    ensures Opened(ClickTab(catalog, p, k).view.grid.value) == FilterBy(catalog, p.bar.value[k].category)
  {
    ClickSelectsExactlyOne(p.bar.value, k);
  }

  /** Clicking the same tab twice is the same as clicking it once. */
  lemma ClickTabIdempotent(catalog: seq<Artwork>, p: Page, k: nat)
    requires p.bar.Some? && k < |p.bar.value|
    ensures ClickTab(catalog, ClickTab(catalog, p, k), k) == ClickTab(catalog, p, k)
  {
    var once := ClickTab(catalog, p, k);
    assert once.bar.value[k].category == p.bar.value[k].category;
    assert MarkSelected(once.bar.value, Some(k)) == once.bar.value;
  }

  /** After start-up an initially empty bar holds one tab per derived category, in order. */
  lemma StartBuildsCategoryTabs(catalog: seq<Artwork>, p: Page)
    requires p.bar == Some([])
    ensures Start(catalog, p).bar.Some?
    ensures |Start(catalog, p).bar.value| == |DeriveCategories(catalog)|
    ensures forall i :: 0 <= i < |Start(catalog, p).bar.value| ==>
      Start(catalog, p).bar.value[i].category == DeriveCategories(catalog)[i]
  {
  }

  /** The records shown after a click on tab `k`, card by card. */
  lemma ClickShowsRecords(catalog: seq<Artwork>, p: Page, k: nat)
    requires p.bar.Some? && k < |p.bar.value|
    requires p.view.grid.Some? && p.view.emptyHidden.Some?
    ensures var shown := FilterBy(catalog, p.bar.value[k].category);
      var after := ClickTab(catalog, p, k);
      && after.view.grid.Some?
      && |after.view.grid.value| == |shown|
      && (forall i :: 0 <= i < |shown| ==> after.view.grid.value[i].title == shown[i].title)
      && (after.view.emptyHidden == Some(|shown| > 0))
  {
  }

  /**
   The Madhubani scenario on the shipped page: start-up builds the six tabs
   All, Madhubani, Warli, Mandala, Zentangle, Calligraphy, and clicking the
   second one shows "Peacock in Bloom" then
   "Floral Harmony" and hides the empty indicator.
   */
  lemma StartThenClickMadhubani(p: Page)
    requires p.bar == Some([])
    requires p.view.grid.Some? && p.view.emptyHidden.Some?
    ensures Start(Artworks, p).bar.Some? && |Start(Artworks, p).bar.value| == 6
    ensures forall i :: 0 <= i < |Start(Artworks, p).bar.value| ==>
      Start(Artworks, p).bar.value[i].category ==
        [AllLabel, "Madhubani", "Warli", "Mandala", "Zentangle", "Calligraphy"][i]
    ensures Start(Artworks, p).bar.value[1].category == "Madhubani"
    ensures var after := ClickTab(Artworks, Start(Artworks, p), 1);
      && after.view.grid.Some?
      && |after.view.grid.value| == 2
      && after.view.grid.value[0].title == "Peacock in Bloom"
      && after.view.grid.value[1].title == "Floral Harmony"
      && after.view.emptyHidden == Some(true)
  {
    var started := Start(Artworks, p);
    StartBuildsCategoryTabs(Artworks, p);
    StartShowsWholeCatalog(Artworks, p);
    ShippedCategories();
    ShippedMadhubani();
    ClickShowsRecords(Artworks, started, 1);
  }

  /** A category no record carries empties the grid and shows the empty indicator. */
  lemma FilterNothingShowsEmpty(catalog: seq<Artwork>, p: Page, category: string, clicked: Option<nat>)
    requires category != AllLabel
    requires forall a :: a in catalog ==> a.form != category
    requires p.view.grid.Some? && p.view.emptyHidden.Some?
    ensures ApplyFilter(catalog, p, category, clicked).view == GalleryView(Some([]), Some(false))
  {
    RenderEmpty(p.view);
  }
}

=== FILE: lightbox.dfy ===
/**
 The lightbox of script.js:148-169: one overlay, created the first time an
 artwork is opened and reused ever after, that is Open or Closed and shows
 the image of the last artwork opened.
 */
module Lightbox {
  import opened Wrappers
  import opened Catalog

  /** The overlay element: whether it carries the `open` class, and its image's `src`. */
  datatype Overlay = Overlay(open: bool, src: Option<string>)

  /**
   The lightbox as the page holds it: the overlay, once it exists, and how
   many overlay elements have been appended to the document body.
   */
  datatype LightboxState = LightboxState(overlay: Option<Overlay>, overlayNodes: nat)

  /** Before anything is opened there is no overlay at all. */
  const Initial: LightboxState := LightboxState(None, 0)

  /** Where a click inside the overlay lands. */
  datatype Target = Backdrop | ContentArea | Picture | CloseButton

  /** How a card is activated: its "View" button, or a key pressed while it has focus. */
  datatype Activation = ViewClick | KeyPress(key: string)

  /** The state is Open: an overlay exists and is shown. */
  predicate IsOpen(lb: LightboxState) {
    lb.overlay.Some? && lb.overlay.value.open
  }

  /**
   Returns the existing overlay, or creates, appends and remembers a new
   one, hidden and without an image (script.js:149-163).
   */
  function Ensure(lb: LightboxState): (r: LightboxState)
    ensures r.overlay.Some?
    ensures lb.overlay.Some? ==> r == lb
    ensures lb.overlay.None? ==>
      r.overlay == Some(Overlay(false, None)) && r.overlayNodes == lb.overlayNodes + 1
  {
    if lb.overlay.Some? then lb else LightboxState(Some(Overlay(false, None)), lb.overlayNodes + 1)
  }

  /** Opens the lightbox on an artwork (script.js:165-169). */
  function Show(lb: LightboxState, item: Artwork): (r: LightboxState)
    ensures IsOpen(r) && r.overlay.value.src == Some(item.src)
    ensures r.overlayNodes == if lb.overlay.Some? then lb.overlayNodes else lb.overlayNodes + 1
  {
    var e := Ensure(lb);
    LightboxState(Some(Overlay(true, Some(item.src))), e.overlayNodes)
  }

  /**
   A click inside the overlay: the close button (script.js:156) and the
   backdrop itself (script.js:157) remove `open`; a click on the content
   area or the image changes nothing. With no overlay there is nothing to click.
   */
  function Click(lb: LightboxState, t: Target): (r: LightboxState)
    ensures r.overlayNodes == lb.overlayNodes
    ensures r.overlay.Some? <==> lb.overlay.Some?
    ensures lb.overlay.Some? ==> r.overlay.value.src == lb.overlay.value.src
    ensures IsOpen(r) <==> IsOpen(lb) && t != Backdrop && t != CloseButton
  {
    match lb.overlay
    case None => lb
    case Some(o) =>
      if t == CloseButton || t == Backdrop then LightboxState(Some(o.(open := false)), lb.overlayNodes)
      else lb
  }

  /**
   A card's view trigger (script.js:126) and its Enter key (script.js:133)
   both open the card's artwork; any other key does nothing.
   */
  function Activate(lb: LightboxState, item: Artwork, how: Activation): (r: LightboxState)
    ensures how == ViewClick || how == KeyPress("Enter") ==> r == Show(lb, item)
    ensures how.KeyPress? && how.key != "Enter" ==> r == lb
  {
    if how.ViewClick? || how.key == "Enter" then Show(lb, item) else lb
  }

  /** Everything that can happen to the lightbox. */
  datatype Event = Open(item: Artwork) | ClickOn(target: Target)

  /** The effect of one event. */
  function Step(lb: LightboxState, e: Event): LightboxState {
    match e
    case Open(item) => Show(lb, item)
    case ClickOn(t) => Click(lb, t)
  }

  /** The effect of a sequence of events, first to last. */
  function Run(lb: LightboxState, events: seq<Event>): LightboxState
    decreases |events|
  {
    if |events| == 0 then lb else Run(Step(lb, events[0]), events[1..])
  }

  /** The document holds one overlay element if the overlay exists, and none otherwise. */
  predicate SingleOverlay(lb: LightboxState) {
    lb.overlayNodes == if lb.overlay.Some? then 1 else 0
  }

  /** Every event keeps the overlay a singleton. */
  lemma StepKeepsSingleOverlay(lb: LightboxState, e: Event)
    requires SingleOverlay(lb)
    ensures SingleOverlay(Step(lb, e))
  {
  }

  /** Once created, the overlay stays: later events never remove or recreate it. */
  lemma {:induction false} RunKeepsOverlay(lb: LightboxState, events: seq<Event>)
    requires lb.overlay.Some?
    ensures Run(lb, events).overlay.Some?
    ensures Run(lb, events).overlayNodes == lb.overlayNodes
    decreases |events|
  {
    if |events| > 0 {
      RunKeepsOverlay(Step(lb, events[0]), events[1..]);
    }
  }

  /** Every run of events keeps the overlay a singleton. */
  lemma {:induction false} RunKeepsSingleOverlay(lb: LightboxState, events: seq<Event>)
    requires SingleOverlay(lb)
    ensures SingleOverlay(Run(lb, events))
    decreases |events|
  {
    if |events| > 0 {
      StepKeepsSingleOverlay(lb, events[0]);
      RunKeepsSingleOverlay(Step(lb, events[0]), events[1..]);
    }
  }

  /** An overlay exists after a run exactly when it existed before or the run opened something. */
  lemma {:induction false} RunCreatesOverlayOnOpen(lb: LightboxState, events: seq<Event>)
    ensures Run(lb, events).overlay.Some? <==>
      lb.overlay.Some? || exists i :: 0 <= i < |events| && events[i].Open?
    decreases |events|
  {
    if |events| > 0 {
      RunCreatesOverlayOnOpen(Step(lb, events[0]), events[1..]);
      if exists i :: 0 <= i < |events[1..]| && events[1..][i].Open? {
        var i :| 0 <= i < |events[1..]| && events[1..][i].Open?;
        assert events[i + 1].Open?;
      }
      if exists i :: 0 <= i < |events| && events[i].Open? {
        var i :| 0 <= i < |events| && events[i].Open?;
        if i > 0 {
          assert events[1..][i - 1].Open?;
        }
      }
    }
  }

  /**
   Whatever happens from page load, at most one overlay element is ever
   created, and there is one exactly when some artwork has been opened.
   */
  lemma OverlayCreatedAtMostOnce(events: seq<Event>)
    ensures Run(Initial, events).overlayNodes <= 1
    ensures Run(Initial, events).overlayNodes == 1 <==>
      exists i :: 0 <= i < |events| && events[i].Open?
  {
    RunKeepsSingleOverlay(Initial, events);
    RunCreatesOverlayOnOpen(Initial, events);
  }

  /** Opening while open replaces the image in place: the first open leaves no trace. */
  lemma ShowReplaces(lb: LightboxState, a: Artwork, b: Artwork)
    ensures Show(Show(lb, a), b) == Show(lb, b)
    ensures IsOpen(Show(Show(lb, a), b))
    ensures Show(Show(lb, a), b).overlay.value.src == Some(b.src)
  {
  }

  /** Open, close by the backdrop, open again: the same single overlay is shown again. */
  lemma ReopenReusesOverlay(a: Artwork)
    ensures Show(Click(Show(Initial, a), Backdrop), a) == Show(Initial, a)
    ensures Show(Click(Show(Initial, a), Backdrop), a).overlayNodes == 1
  {
  }

  /** An open lightbox closes exactly on the close button and on the backdrop. */
  lemma ClosesOnlyOnBackdropOrButton(lb: LightboxState, t: Target)
    requires IsOpen(lb)
    ensures !IsOpen(Click(lb, t)) <==> t == Backdrop || t == CloseButton
    ensures t == ContentArea || t == Picture ==> Click(lb, t) == lb
  {
  }
}

=== FILE: render.dfy ===
/**
 The gallery renderer of script.js:100-136: every call clears the grid and
 rebuilds it from the given records, one card per record in order, or shows
 the empty-state indicator when there is nothing to show.
 */
module Render {
  import opened Wrappers
  import opened Catalog
  import opened Text

  /** U+2022 BULLET, between the fields of a card's meta line. */
  const Bullet: char := '\U{2022}'
  /** U+2014 EM DASH, between title and form in an image's alt text. */
  const EmDash: char := '\U{2014}'

  /**
   What one card shows: its heading, its meta line, its image, and the record
   that its "View" button and its Enter key open in the lightbox.
   */
  datatype Card = Card(title: string, meta: string, imageSrc: string, imageAlt: string, item: Artwork)

  /** `form • medium • year` (script.js:122). */
  function MetaLine(a: Artwork): (s: string)
    ensures |s| == |a.form| + |a.medium| + |IntText(a.year)| + 6
    ensures s[..|a.form|] == a.form
    ensures s[|a.form|..|a.form| + 3] == [' ', Bullet, ' ']
    ensures s[|a.form| + 3..|a.form| + 3 + |a.medium|] == a.medium
    ensures s[|a.form| + 3 + |a.medium|..|a.form| + 6 + |a.medium|] == [' ', Bullet, ' ']
    ensures s[|s| - |IntText(a.year)|..] == IntText(a.year)
  {
    a.form + [' ', Bullet, ' '] + a.medium + [' ', Bullet, ' '] + IntText(a.year)
  }

  /** Reads a meta line back into form, medium and year; None when it is not one. */
  function ParseMeta(s: string): Option<(string, string, int)> {
    match Cut(s, Bullet)
    case None => None
    case Some((head, rest)) =>
      match Cut(rest, Bullet)
      case None => None
      case Some((mid, tail)) =>
        if |head| >= 1 && head[|head| - 1] == ' ' && |mid| >= 2 && mid[0] == ' ' && mid[|mid| - 1] == ' '
           && |tail| >= 1 && tail[0] == ' '
        then
          match ParseInt(tail[1..])
          case None => None
          case Some(year) => Some((head[..|head| - 1], mid[1..|mid| - 1], year))
        else None
  }

  /** The first bullet of a meta line is the one after the form. */
  lemma MetaLineFirstCut(a: Artwork)
    requires Bullet !in a.form
    ensures Cut(MetaLine(a), Bullet) ==
      Some((a.form + [' '], [' '] + a.medium + [' '] + [Bullet] + ([' '] + IntText(a.year))))
  {
    var rest := [' '] + a.medium + [' '] + [Bullet] + ([' '] + IntText(a.year));
    var y := IntText(a.year);
    assert a.form + [' ', Bullet, ' '] + a.medium + [' ', Bullet, ' '] + y
        == (a.form + [' ']) + [Bullet] + rest;
    CutJoin(a.form + [' '], Bullet, rest);
  }

  /** What follows the first bullet is cut again after the medium. */
  lemma MetaLineSecondCut(a: Artwork)
    requires Bullet !in a.medium
    ensures Cut([' '] + a.medium + [' '] + [Bullet] + ([' '] + IntText(a.year)), Bullet) ==
      Some(([' '] + a.medium + [' '], [' '] + IntText(a.year)))
  {
    CutJoin([' '] + a.medium + [' '], Bullet, [' '] + IntText(a.year));
  }

  /**
   The meta line loses nothing: when neither form nor medium contains a
   bullet, the three fields can be read back from it.
   */
  lemma MetaLineRoundTrip(a: Artwork)
    requires Bullet !in a.form && Bullet !in a.medium
    ensures ParseMeta(MetaLine(a)) == Some((a.form, a.medium, a.year))
  {
    var head := a.form + [' '];
    var mid := [' '] + a.medium + [' '];
    var tail := [' '] + IntText(a.year);
    MetaLineFirstCut(a);
    MetaLineSecondCut(a);
    assert ParseInt(tail[1..]) == Some(a.year) by {
      assert tail[1..] == IntText(a.year);
      IntTextRoundTrip(a.year);
    }
    assert head[..|head| - 1] == a.form;
    assert mid[1..|mid| - 1] == a.medium;
  }

  /** `title — form`, the image's alt text (script.js:115). */
  function AltText(a: Artwork): (s: string)
    ensures |s| == |a.title| + 3 + |a.form|
    ensures s[..|a.title|] == a.title
    ensures s[|a.title|..|a.title| + 3] == [' ', EmDash, ' ']
    ensures s[|s| - |a.form|..] == a.form
  {
    a.title + [' ', EmDash, ' '] + a.form
  }

  /** The card built for one record (script.js:113-131). */
  function CardFor(a: Artwork): Card {
    Card(a.title, MetaLine(a), a.src, AltText(a), a)
  }

  /** The cards of one render: exactly one per record, in the records' order. */
  function Cards(items: seq<Artwork>): (cards: seq<Card>)
    ensures |cards| == |items|
    ensures forall i :: 0 <= i < |items| ==>
      && cards[i].item == items[i]
      && cards[i].title == items[i].title
      && cards[i].imageSrc == items[i].src
      && cards[i].meta == MetaLine(items[i])
      && cards[i].imageAlt == AltText(items[i])
  {
    seq(|items|, i requires 0 <= i < |items| => CardFor(items[i]))
  }

  /** The records the cards open, read back off the cards. */
  function Opened(cards: seq<Card>): (items: seq<Artwork>)
    ensures |items| == |cards|
  {
    seq(|cards|, i requires 0 <= i < |cards| => cards[i].item)
  }

  /** No record is lost, added or reordered by rendering. */
  lemma CardsKeepRecords(items: seq<Artwork>)
    ensures Opened(Cards(items)) == items
  {
  }

  /**
   The three mount points the renderer writes to: the card grid and the
   empty-state indicator (`hidden` or not). None is an element the page lacks.
   */
  datatype GalleryView = GalleryView(grid: Option<seq<Card>>, emptyHidden: Option<bool>)

  /**
   One render pass (script.js:100-136). With either mount point missing the
   page is left alone; otherwise the grid is emptied and refilled, and the
   empty indicator is hidden exactly when there is something to show.
   */
  function BuildGallery(v: GalleryView, items: seq<Artwork>): (r: GalleryView)
    ensures (v.grid.None? || v.emptyHidden.None?) ==> r == v
    ensures v.grid.Some? && v.emptyHidden.Some? ==>
      && r.grid.Some? && r.emptyHidden.Some?
      && r.grid.value == Cards(items)
      && |r.grid.value| == |items|
      && Opened(r.grid.value) == items
      && (r.emptyHidden.value <==> |items| > 0)
  {
    if v.grid.None? || v.emptyHidden.None? then v
    else
      CardsKeepRecords(items);
      GalleryView(Some(Cards(items)), Some(|items| > 0))
  }

  /**
   Nothing of an earlier render survives: two pages that differ only in what
   they showed before show the same thing after rendering the same records.
   */
  lemma RenderForgetsPrevious(v1: GalleryView, v2: GalleryView, items: seq<Artwork>)
    requires v1.grid.Some? && v1.emptyHidden.Some?
    requires v2.grid.Some? && v2.emptyHidden.Some?
    ensures BuildGallery(v1, items) == BuildGallery(v2, items)
  {
  }

  /** Rendering nothing shows the empty indicator over an empty grid. */
  lemma RenderEmpty(v: GalleryView)
    requires v.grid.Some? && v.emptyHidden.Some?
    ensures BuildGallery(v, []) == GalleryView(Some([]), Some(false))
  {
  }

  /** Rendering the same records twice is the same as rendering them once. */
  lemma RenderIdempotent(v: GalleryView, items: seq<Artwork>)
    ensures BuildGallery(BuildGallery(v, items), items) == BuildGallery(v, items)
  {
  }
}

=== FILE: tabs.dfy ===
/**
 The filter tab bar: built once with the first tab selected
 (script.js:89-98), then reset on every filter call so that only the
 clicked tab, if any, is selected (script.js:139-140).
 */
module Tabs {
  import opened Wrappers

  /** One tab button: the category it filters by and its `aria-selected` state. */
  datatype Tab = Tab(category: string, selected: bool)

  /**
   Appends one tab per category to the bar, the first one selected; a page
   without the bar gets no tabs (script.js:89-98).
   */
  function BuildFilters(bar: Option<seq<Tab>>, categories: seq<string>): (r: Option<seq<Tab>>)
    ensures r.Some? <==> bar.Some?
    ensures bar.Some? ==>
      && |r.value| == |bar.value| + |categories|
      && r.value[..|bar.value|] == bar.value
      && forall i :: 0 <= i < |categories| ==>
           r.value[|bar.value| + i] == Tab(categories[i], i == 0)
  {
    match bar
    case None => None
    case Some(tabs) =>
      Some(tabs + seq(|categories|, i requires 0 <= i < |categories| => Tab(categories[i], i == 0)))
  }

  /**
   Deselects every tab, then selects the clicked one (script.js:139-140).
   `clicked` is the position of the clicked tab, None when the call came
   with no button.
   */
  function MarkSelected(tabs: seq<Tab>, clicked: Option<nat>): (r: seq<Tab>)
    ensures |r| == |tabs|
    ensures forall i :: 0 <= i < |tabs| ==>
      r[i].category == tabs[i].category && (r[i].selected <==> clicked == Some(i))
  {
    seq(|tabs|, i requires 0 <= i < |tabs| => Tab(tabs[i].category, clicked == Some(i)))
  }

  /** How many tabs are selected. */
  function SelectedCount(tabs: seq<Tab>): nat {
    if |tabs| == 0 then 0 else (if tabs[0].selected then 1 else 0) + SelectedCount(tabs[1..])
  }

  /** Tabs of which none is selected count zero. */
  lemma {:induction false} NoneSelectedCount(tabs: seq<Tab>)
    requires forall i :: 0 <= i < |tabs| ==> !tabs[i].selected
    ensures SelectedCount(tabs) == 0
  {
    if |tabs| > 0 {
      NoneSelectedCount(tabs[1..]);
    }
  }

  /** Tabs of which exactly position `k` is selected count one. */
  lemma {:induction false} OnlySelectedCount(tabs: seq<Tab>, k: nat)
    requires k < |tabs|
    requires forall i :: 0 <= i < |tabs| ==> (tabs[i].selected <==> i == k)
    ensures SelectedCount(tabs) == 1
  {
    if k == 0 {
      NoneSelectedCount(tabs[1..]);
    } else {
      OnlySelectedCount(tabs[1..], k - 1);
    }
  }

  /** After a click on tab `k`, that tab and no other is selected. */
  lemma ClickSelectsExactlyOne(tabs: seq<Tab>, k: nat)
    requires k < |tabs|
    ensures MarkSelected(tabs, Some(k))[k].selected
    ensures SelectedCount(MarkSelected(tabs, Some(k))) == 1
  {
    OnlySelectedCount(MarkSelected(tabs, Some(k)), k);
  }

  /** A filter call with no button leaves no tab selected. */
  lemma NoButtonSelectsNone(tabs: seq<Tab>)
    ensures SelectedCount(MarkSelected(tabs, None)) == 0
  {
    NoneSelectedCount(MarkSelected(tabs, None));
  }

  /** Building the tabs into an empty bar selects exactly the first, "All" when built from the categories. */
  lemma BuildSelectsFirst(categories: seq<string>)
    requires |categories| >= 1
    ensures BuildFilters(Some([]), categories).value[0] == Tab(categories[0], true)
    ensures SelectedCount(BuildFilters(Some([]), categories).value) == 1
  {
    OnlySelectedCount(BuildFilters(Some([]), categories).value, 0);
  }
}

=== FILE: text.dfy ===
/**
 The text pieces a card is made of: the decimal rendering a template
 literal gives an integer of magnitude below 10^21, and cutting a line at a separator
 character, used to read a card's meta line back into its fields.
 */
module Text {
  import opened Wrappers

  predicate IsDigit(c: char) {
    '0' <= c <= '9'
  }

  predicate AllDigits(s: string) {
    forall i :: 0 <= i < |s| ==> IsDigit(s[i])
  }

  function DigitChar(d: nat): (c: char)
    requires d < 10
    ensures IsDigit(c)
  {
    (('0' as int) + d) as char
  }

  function DigitValue(c: char): (d: nat)
    requires IsDigit(c)
    ensures d < 10
  {
    (c as int) - ('0' as int)
  }

  /** Decimal digits of `n`, most significant first, with no leading zero. */
  function NatText(n: nat): (s: string)
    ensures 1 <= |s| && AllDigits(s)
    ensures |s| > 1 ==> s[0] != '0'
  {
    if n < 10 then [DigitChar(n)] else NatText(n / 10) + [DigitChar(n % 10)]
  }

  /**
   How `${n}` renders an integer below 10^21 in magnitude: a minus sign
   before the digits of a negative one.
   */
  function IntText(n: int): (s: string)
    ensures 1 <= |s|
    ensures forall i :: 0 <= i < |s| ==> IsDigit(s[i]) || s[i] == '-'
    ensures s[0] == '-' <==> n < 0
    ensures var d := if n < 0 then s[1..] else s;
      1 <= |d| && AllDigits(d) && (|d| > 1 ==> d[0] != '0')
  {
    if n < 0 then "-" + NatText(-n) else NatText(n)
  }

  /** The value of a string of decimal digits. */
  function DigitsValue(s: string): nat
    requires AllDigits(s)
  {
    if |s| == 0 then 0 else 10 * DigitsValue(s[..|s| - 1]) + DigitValue(s[|s| - 1])
  }

  /** Reads an optionally negative decimal integer; anything else is None. */
  function ParseInt(s: string): Option<int> {
    if |s| > 0 && s[0] == '-' then
      if |s| > 1 && AllDigits(s[1..]) then Some(-(DigitsValue(s[1..]) as int)) else None
    else if |s| > 0 && AllDigits(s) then Some(DigitsValue(s))
    else None
  }

  lemma {:induction false} NatTextRoundTrip(n: nat)
    ensures DigitsValue(NatText(n)) == n
  {
    if n >= 10 {
      NatTextRoundTrip(n / 10);
      var s := NatText(n);
      assert s[..|s| - 1] == NatText(n / 10);
    }
  }

  /** Reading back the rendered text of an integer gives the integer. */
  lemma IntTextRoundTrip(n: int)
    ensures ParseInt(IntText(n)) == Some(n)
  {
    if n < 0 {
      NatTextRoundTrip(-n);
      assert IntText(n)[1..] == NatText(-n);
    } else {
      NatTextRoundTrip(n);
    }
  }

  /**
   Cuts `s` at the first `sep`: the part before it and the part after it,
   or None when `sep` does not occur.
   */
  function Cut(s: string, sep: char): (r: Option<(string, string)>)
    ensures r.None? <==> sep !in s
    ensures r.Some? ==> s == r.value.0 + [sep] + r.value.1 && sep !in r.value.0
  {
    if |s| == 0 then None
    else if s[0] == sep then Some(([], s[1..]))
    else
      match Cut(s[1..], sep)
      case None => None
      case Some((before, after)) => Some(([s[0]] + before, after))
  }

  /** Cutting a joined line recovers both halves when the first holds no separator. */
  lemma {:induction false} CutJoin(a: string, sep: char, b: string)
    requires sep !in a
    ensures Cut(a + [sep] + b, sep) == Some((a, b))
  {
    var s := a + [sep] + b;
    if |a| > 0 {
      assert s[1..] == a[1..] + [sep] + b;
      CutJoin(a[1..], sep, b);
      assert [a[0]] + a[1..] == a;
    }
  }
}

=== FILE: wrappers.dfy ===
/** The optional-value datatype used where the page may lack an element. */
module Wrappers {

  /** `None` stands for an absent element or an unparsable text. */
  datatype Option<+T> = None | Some(value: T)
}
